=== FILE: README.md ===
# NeRO.js behaviour model

A Dafny model of `nero.js`, the script of the NeRO UI framework. At page load
the script wires click listeners onto markup conventions. Four independent
state machines sit behind the listeners. Each one only adds or removes class
names:

- **Sidebar** (`sidebar.dfy`): the mobile toggle flips `show` on the sidebar
  and on its overlay. A click on the overlay removes both. The desktop toggle
  flips `collapsed`.
- **Modals** (`modals.dfy`): a `data-toggle="modal"` button adds `show` to its
  target. A backdrop or close button runs `closeModal`, which has two phases.
  First it adds `is-closing`. Then a one-shot `animationend` listener removes
  `show` and `is-closing`.
- **Tabs** (`tabs.dfy`): a click on a `.tab-link` deactivates every link of
  its `.tabs-nav`. It also deactivates every `.tab-pane` child of the
  target pane's `.tabs-content`, or of the pane's parent when there is no
  `.tabs-content`. Then it activates the link and the pane. At setup, each nav that has a link gets an active link and
  that link's pane is activated.
- **Dropdowns** (`dropdowns.dfy`): a toggle click closes every other open
  `.dropdown-menu`, then flips `show` on its own menu. Any click that reaches
  the window closes every menu, unless its target is a toggle.
- **Page** (`page.dfy`): the four run side by side. Every click bubbles to the
  window listener unless a dropdown toggle's listener stopped it. So a click
  on a sidebar button, a modal button, a tab link or anywhere else also closes
  every dropdown.

Page elements are opaque natural-number ids. The DOM queries become lookup
tables: a `Tabs.Document`, a `Sidebar.Markup`, and `Option` values for
lookups that may find nothing. Each transition is a pure function on
immutable state.

## Model

| member | source | states |
|---|---|---|
| Sidebar.Step | nero.js:15-44 | A click on an unwired control changes nothing. Only the desktop toggle changes `collapsed`, and it touches nothing else. The overlay click hides both the sidebar and the overlay. The mobile toggle flips the sidebar's `show`, and also the overlay's `show` when there is an overlay. Without an overlay element, the overlay flag never changes. |
| Sidebar.StepKeepsSynced | nero.js:21-37 | With an overlay on the page, every click keeps the overlay's `show` equal to the sidebar's. |
| Sidebar.ToggleTwiceRestores | nero.js:21-44 | Two clicks on the same toggle button restore the earlier state. |
| Sidebar.OverlayClickIdempotent | nero.js:32-37 | A second overlay click changes nothing. |
| Sidebar.Run | nero.js:15-44 | A run of clicks without a desktop toggle click never changes `collapsed`. |
| Sidebar.RunKeepsSynced | nero.js:21-37 | The overlay and the sidebar stay in step through any run of clicks. |
| Modals.Open | nero.js:52-59 | Opening adds only `show` to the target modal. `is-closing` and a waiting close are kept. Every other modal is unchanged. A target that finds nothing changes nothing. |
| Modals.CloseModal | nero.js:63-72 | Closing adds `is-closing`, keeps `show` and arms the animation-end step. Other modals are unchanged. An absent modal changes nothing. |
| Modals.AnimationEnd | nero.js:68-71 | With a close waiting, the animation end clears `show`, `is-closing` and the waiting close. Without one it changes nothing. Other modals are unchanged. |
| Modals.StepKeepsNeverStuck | nero.js:48-86 | No event leaves a modal with `is-closing` and no close waiting. |
| Modals.AnimationEndClearsClosing | nero.js:63-72 | On a modal that is not stuck, the animation end always leaves it without `is-closing`. |
| Modals.PendingSurvives | nero.js:52-72 | A modal marked closing stays closing, with its close armed, through any events other than its own animation end. |
| Modals.CloseThenAnimationEndHides | nero.js:52-72 | A close, then any other events (including opens of the same modal), then the animation end: the modal has neither `show` nor `is-closing`. |
| Modals.OpenWhileClosingStillHides | nero.js:53-71 | An open issued during a close does not cancel it. The animation end still hides the modal. |
| Dropdowns.CloseAllDropdowns | nero.js:195-201 | Only menus that were open stay open, and only the excluded menu can stay open. The excluded menu stays open if it was open. |
| Dropdowns.CloseAllDropdownsInOrder | nero.js:195-201 | The document-order loop over the `.dropdown-menu.show` matches gives the same set as `CloseAllDropdowns`. |
| Dropdowns.ToggleHandler | nero.js:172-184 | After a toggle click, no menu other than the toggle's own is open. The own menu is open afterwards exactly when it was closed before. |
| Dropdowns.WindowHandler | nero.js:188-193 | A window click whose target is not a toggle closes every menu. One whose target is a toggle changes nothing. |
| Dropdowns.ToggleClosesOthers | nero.js:176-183 | A toggle click for menu `m` leaves at most `m` open. |
| Dropdowns.ToggleFlipsOwn | nero.js:179-183 | A toggle click on a closed menu leaves exactly that menu open. On an open menu it leaves none open. |
| Dropdowns.ToggleAThenB | nero.js:171-184 | Toggling menu A and then a different menu B leaves exactly B open. |
| Dropdowns.ToggleAThenA | nero.js:171-184 | Toggling a closed menu twice leaves every menu closed. |
| Dropdowns.ToggleWithoutMenuClosesAll | nero.js:176-183 | A toggle whose `.dropdown` holds no menu closes every menu. |
| Dropdowns.OutsideClickClosesAll | nero.js:188-193 | A click outside every toggle closes every menu. |
| Dropdowns.DispatchAtMostOne | nero.js:171-201 | After any click, at most one menu is open, whatever was open before. |
| Dropdowns.RunAtMostOne | nero.js:168-201 | "At most one menu open" holds after any run of clicks. |
| Tabs.PaneGroup | nero.js:106-127 | The panes a click deactivates are exactly the `.tab-pane` children of the pane's `.tabs-content`. When there is none, they are the `.tab-pane` children of the pane's parent. |
| Tabs.Click | nero.js:94-133 | A link whose target pane is missing changes nothing, even outside a `.tabs-nav`. Otherwise the link and its pane become active. Every other link of the nav becomes inactive. Every other pane of the group becomes inactive. Every element outside the nav and the group keeps its state. |
| Tabs.ClickIdempotent | nero.js:105-132 | Clicking the same link twice gives the same state as clicking it once. |
| Tabs.ClickOnlyActiveLink | nero.js:105-131 | On a well-formed page, after a successful click, the clicked link is the only active link of its nav. |
| Tabs.Untouched | nero.js:105-132 | On a well-formed page, a link of another nav keeps its state through a click. |
| Tabs.ClickKeepsOneActivePerNav | nero.js:105-132 | On a well-formed page, no click gives a nav two active links. |
| Tabs.FirstActive | nero.js:138 | Finds the first active link of the list. Every link before it is inactive. When it finds none, no link is active. |
| Tabs.InitNav | nero.js:137-157 | Setup of one nav only adds `active`. A nav with a link ends with an active link whose pane, if it exists, is active. When a link was active, exactly the first active link's pane is added. When none was, exactly the first link and its pane are added. |
| Tabs.InitAll | nero.js:137-157 | Setup of all the navs only adds `active`. |
| Tabs.InitAllSettles | nero.js:137-157 | After the setup pass, every nav that has a link has an active link whose pane, if it exists, is active. |
| Tabs.OtherNavUntouched | nero.js:137-157 | On a well-formed page, setting up one nav activates no link of another nav. |
| Tabs.InitAllFirstLink | nero.js:145-155 | On a well-formed page, every nav that has links but no active link at the start of setup ends with its first link active. |
| Tabs.InitAllAddsOnly | nero.js:137-157 | Setup adds `active` only to first links of navs and to panes that some link selects. |
| Tabs.InitNavKeepsOneActivePerNav | nero.js:137-157 | On a well-formed page, setting up one nav never gives a nav a second active link. |
| Tabs.InitAllKeepsOneActivePerNav | nero.js:137-157 | On a well-formed page, the setup pass never gives a nav a second active link. |
| Tabs.InactivePanes | nero.js:161 | The `.tab-pane:not(.active)` matches are exactly the panes that are not active. |
| Tabs.HideInactivePanes | nero.js:159-163 | The last setup pass leaves the state unchanged. |
| Tabs.SetupTabs | nero.js:136-163 | Tab setup only adds `active`, and only to first links and selected panes. Afterwards every nav that has a link has an active link whose pane, if it exists, is active. On a well-formed page, a nav with no active link gets its first link activated. On a well-formed page where no nav starts with two active links, no nav ends with two. |
| Page.Step | nero.js:168-209 | Every click except a dropdown toggle click closes every menu. A dropdown toggle click stops propagation, so only the toggle's own listener changes the menus, and a closed menu it opens stays the only open one. An animation end leaves the menus alone. Each event runs its own component's handler (`Sidebar.Step`, `Modals.Open`, `Modals.CloseModal`, `Modals.AnimationEnd` or `Tabs.Click`) and changes no other component, apart from the menus. |
| Page.Load | nero.js:205-209 | Loading keeps the markup's sidebar, modal and menu classes. It adds tab `active` classes only to first links and selected panes. Every nav that has a link ends with an active link whose pane, if it exists, is active. A nav with no active link gets its first link. On a well-formed page whose markup meets the four invariants, the loaded page meets them too. |
| Page.StepKeepsInvariant | nero.js:12-209 | On a well-formed page, every event preserves four invariants: at most one menu open, no stuck modal, overlay in step with sidebar, at most one active link per nav. |
| Page.RunKeepsInvariant | nero.js:12-209 | The same four invariants hold after any run of events. |

## Left out

- DOM queries (`querySelector`, `querySelectorAll`, `closest`, `matches`, `getAttribute`): replaced by the lookup tables of `Tabs.Document`, the presence flags of `Sidebar.Markup`, and `Option` arguments for what a query finds.
- Null-dereference crashes: a missing sidebar (nero.js:24, 34, 42) and a tab link that finds its pane but lies outside a `.tabs-nav` (nero.js:109) are excluded by `Sidebar.CanHandle` and `Tabs.Clickable`. `Tabs.Clickable` also asks that the pane have a `.tabs-content` or a parent (nero.js:122). A real page always meets this, because every element `querySelector` finds has a parent node. A toggle with no `.dropdown` ancestor (nero.js:176) is not modelled: `ToggleClick` takes the menu its `.dropdown` holds.
- Event mechanics: `preventDefault`, listener registration and event bubbling are reduced to one dispatch function per component, plus `Page.Step`. A toggle added to the page after setup has no listener. `Dropdowns.WindowHandler` covers a window click on such a toggle, but `Dispatch` never produces one.
- Animation timing: reduced to an explicit `AnimationEnd` step. The `{ once: true }` listeners become one `pendingEnd` flag, because every pending listener fires on the same event. `animationend` events that bubble up from inside a modal are not distinguished.
- `console.warn` (nero.js:101) and the `readyState` / `DOMContentLoaded` bootstrap (nero.js:213-218).
- Nested `.tabs-nav` elements: `Tabs.Click` uses the nav's own list of links as the code does. The lemmas assume `Tabs.WellFormed`. It rules out nesting. It also rules out a link's target or a `.tab-pane` being a tab link.
- Page.Load: the markup is assumed to start inside the invariants: at most one `.dropdown-menu.show`, the overlay's `show` equal to the sidebar's, no modal carrying `is-closing`, no nav with two active links. `nero.js` takes over whatever classes the markup has. Two shown menus are fixed by the first click (`Dropdowns.DispatchAtMostOne`). A sidebar whose `show` differs from its overlay's stays out of step through mobile and desktop toggle clicks. An overlay click puts the two back in step.
- Invalid `href` selectors: `document.querySelector` throws on an invalid selector such as `#`. In the click handler this ends the click like a missing pane, which is how the model treats it. During setup (nero.js:140-141, 150-151) the exception aborts `initializeFramework`, so later navs are not set up and `setupDropdowns` never runs. `Page` assumes every component is wired.
- Nested modals: `modal.querySelectorAll` at nero.js:77 also finds the close buttons of a modal nested inside, so one click on such a button closes both modals. `CloseClick` closes one modal.
- Whether a click keeps other navs settled is not stated. Two navs whose panes share a `.tabs-content` can deactivate each other's panes.

=== FILE: dropdowns.dfy ===
/** The dropdown menus of the page. A click on a `[data-toggle="dropdown"]`
    toggle stops the event's propagation, closes every other open menu and
    flips `show` on the menu of its `.dropdown`; a click that reaches the
    window and was not on a toggle closes every menu.

    The state is the set of menus that carry `show`. */
module Dropdowns {
  import opened Options

  type MenuId = nat

  /** A click as the dropdown code sees it: on a wired toggle, whose
      `.dropdown` holds `menu` (`None` when it holds no `.dropdown-menu`),
      or anywhere else. */
  datatype Click = ToggleClick(menu: Option<MenuId>) | OtherClick

  /** `closeAllDropdowns(excludeMenu)`: every open menu except the excluded
      one loses `show`. */
  function CloseAllDropdowns(shown: set<MenuId>, exclude: Option<MenuId>): (r: set<MenuId>)
    ensures r <= shown
    ensures forall m :: m in r ==> exclude == Some(m)
    ensures exclude.Some? && exclude.value in shown ==> exclude.value in r
  {
    set m | m in shown && exclude == Some(m)
  }

  /** `closeAllDropdowns` as the page runs it: a walk over the menus that
      `.dropdown-menu.show` matches, in document order, removing `show` from
      each one that is not the excluded menu. It ends where the set
      description above ends. */
  method CloseAllDropdownsInOrder(shown: set<MenuId>, matched: seq<MenuId>, exclude: Option<MenuId>)
    returns (r: set<MenuId>)
    requires forall m :: m in matched <==> m in shown
    ensures r == CloseAllDropdowns(shown, exclude)
  {
    r := shown;
    var i := 0;
    while i < |matched|
      invariant 0 <= i <= |matched|
      invariant forall m :: m in r <==> m in shown && (exclude == Some(m) || m !in matched[..i])
    {
      if exclude != Some(matched[i]) {
        r := r - {matched[i]};
      }
      assert matched[..i + 1] == matched[..i] + [matched[i]];
      i := i + 1;
    }
    assert matched[..i] == matched;
  }

  /** The toggle's listener: close the other menus, then flip its own. */
  function ToggleHandler(shown: set<MenuId>, menu: Option<MenuId>): (r: set<MenuId>)
    // no menu other than the toggle's own stays open
    ensures forall m :: m in r ==> menu == Some(m)
    // the toggle's own menu is flipped: closed becomes open, open becomes closed
    ensures menu.Some? ==> (menu.value in r <==> menu.value !in shown)
  {
    var rest := CloseAllDropdowns(shown, menu);
    match menu
    case None => rest
    case Some(m) => if m in rest then rest - {m} else rest + {m}
  }

  /** The window's listener: a click whose target is not a toggle closes
      every menu. */
  function WindowHandler(shown: set<MenuId>, targetIsToggle: bool): (r: set<MenuId>)
    ensures !targetIsToggle ==> r == {}
    ensures targetIsToggle ==> r == shown
  {
    if !targetIsToggle then CloseAllDropdowns(shown, None) else shown
  }

  /** One click. The toggle's listener stops propagation, so the window's
      listener never runs for a toggle click; any other click reaches it. */
  function Dispatch(shown: set<MenuId>, c: Click): set<MenuId>
  {
    match c
    case ToggleClick(menu) => ToggleHandler(shown, menu)
    case OtherClick => WindowHandler(shown, false)
  }

  function Run(shown: set<MenuId>, cs: seq<Click>): set<MenuId>
    decreases |cs|
  {
    if cs == [] then shown else Run(Dispatch(shown, cs[0]), cs[1..])
  }

  /** At most one menu carries `show`. */
  predicate AtMostOneOpen(shown: set<MenuId>)
  {
    forall a, b :: a in shown && b in shown ==> a == b
  }

  /** A toggle click leaves no menu but its own open. */
  lemma ToggleClosesOthers(shown: set<MenuId>, m: MenuId)
    ensures Dispatch(shown, ToggleClick(Some(m))) <= {m}
  {
  }

  /** A toggle click opens its menu exactly when the menu was closed. */
  lemma ToggleFlipsOwn(shown: set<MenuId>, m: MenuId)
    ensures m in Dispatch(shown, ToggleClick(Some(m))) <==> m !in shown
    ensures m !in shown ==> Dispatch(shown, ToggleClick(Some(m))) == {m}
    ensures m in shown ==> Dispatch(shown, ToggleClick(Some(m))) == {}
  {
    var r := Dispatch(shown, ToggleClick(Some(m)));
    if m !in shown {
      assert m in r;
    }
  }

  /** Opening menu A and then menu B leaves exactly B open. */
  lemma ToggleAThenB(shown: set<MenuId>, a: MenuId, b: MenuId)
    requires a != b
    ensures Dispatch(Dispatch(shown, ToggleClick(Some(a))), ToggleClick(Some(b))) == {b}
  {
    var s1 := Dispatch(shown, ToggleClick(Some(a)));
    ToggleClosesOthers(shown, a);
    assert b !in s1;
    ToggleFlipsOwn(s1, b);
  }

  /** Clicking a closed menu's toggle twice leaves every menu closed. */
  lemma ToggleAThenA(shown: set<MenuId>, a: MenuId)
    requires a !in shown
    ensures Dispatch(Dispatch(shown, ToggleClick(Some(a))), ToggleClick(Some(a))) == {}
  {
    ToggleFlipsOwn(shown, a);
    ToggleFlipsOwn({a}, a);
  }

  /** A toggle whose `.dropdown` holds no menu closes every menu. */
  lemma ToggleWithoutMenuClosesAll(shown: set<MenuId>)
    ensures Dispatch(shown, ToggleClick(None)) == {}
  {
  }

  /** A click anywhere but a toggle closes every menu. */
  lemma OutsideClickClosesAll(shown: set<MenuId>)
    ensures Dispatch(shown, OtherClick) == {}
  {
  }

  /** Whatever was open before, after any click at most one menu is open;
      in particular the invariant is preserved. */
  lemma DispatchAtMostOne(shown: set<MenuId>, c: Click)
    ensures AtMostOneOpen(Dispatch(shown, c))
  {
  }

  /** From any state with at most one menu open, every run of clicks keeps
      at most one menu open. */
  lemma {:induction false} RunAtMostOne(shown: set<MenuId>, cs: seq<Click>)
    requires AtMostOneOpen(shown)
    ensures AtMostOneOpen(Run(shown, cs))
    decreases |cs|
  {
    if cs != [] {
      DispatchAtMostOne(shown, cs[0]);
      RunAtMostOne(Dispatch(shown, cs[0]), cs[1..]);
    }
  }

}

=== FILE: modals.dfy ===
/** The modal dialogs of the page. A `[data-toggle="modal"]` button adds
    `show` to the modal its `data-target` names; the backdrop and the close
    buttons of a modal start a two-phase close: `is-closing` is added at once
    and a one-shot `animationend` listener is registered that, when the
    closing animation ends, removes both `show` and `is-closing`.

    Each modal is an opaque id; its state is the pair of class flags plus
    whether a one-shot `animationend` listener is still waiting. Every
    pending one-shot listener fires on the same `animationend` event, so one
    flag is enough to record them all. */
module Modals {
  import opened Options

  type ModalId = nat

  /** `show`, `is-closing`, and whether a close is waiting for its animation. */
  datatype Flags = Flags(show: bool, closing: bool, pendingEnd: bool)

  /** No class and no close waiting. */
  const Hidden := Flags(false, false, false)

  /** The flags of every modal on the page; a modal not in the map is hidden. */
  type ModalMap = map<ModalId, Flags>

  function FlagsOf(ms: ModalMap, id: ModalId): Flags
  {
    if id in ms then ms[id] else Hidden
  }

  /** A click on a modal toggle. `target` is what the toggle's `data-target`
      selector finds, `None` when it finds nothing. */
  function Open(ms: ModalMap, target: Option<ModalId>): (r: ModalMap)
    ensures target.None? ==> r == ms
    ensures target.Some? ==> FlagsOf(r, target.value) == FlagsOf(ms, target.value).(show := true)
    ensures forall id: ModalId :: target != Some(id) ==> FlagsOf(r, id) == FlagsOf(ms, id)
  {
    match target
    case None => ms
    case Some(id) => ms[id := FlagsOf(ms, id).(show := true)]
  }

  /** `closeModal`: a click on a modal's backdrop or close button. It marks
      the modal as closing, keeps `show`, and arms the animation-end step. */
  function CloseModal(ms: ModalMap, modal: Option<ModalId>): (r: ModalMap)
    ensures modal.None? ==> r == ms
    ensures modal.Some? ==>
      FlagsOf(r, modal.value) == FlagsOf(ms, modal.value).(closing := true, pendingEnd := true)
    ensures forall id: ModalId :: modal != Some(id) ==> FlagsOf(r, id) == FlagsOf(ms, id)
  {
    match modal
    case None => ms
    case Some(id) => ms[id := FlagsOf(ms, id).(closing := true, pendingEnd := true)]
  }

  /** The `animationend` event on a modal. With a close waiting, its
      listeners remove `show` and `is-closing` and are discarded; without
      one, nothing listens and nothing changes. */
  function AnimationEnd(ms: ModalMap, id: ModalId): (r: ModalMap)
    ensures FlagsOf(ms, id).pendingEnd ==> FlagsOf(r, id) == Hidden
    ensures !FlagsOf(ms, id).pendingEnd ==> r == ms
    ensures forall other :: other != id ==> FlagsOf(r, other) == FlagsOf(ms, other)
  {
    if FlagsOf(ms, id).pendingEnd then ms[id := Hidden] else ms
  }

  datatype Event =
    | OpenClick(target: Option<ModalId>)
    | CloseClick(modal: Option<ModalId>)
    | AnimationEndOf(ended: ModalId)

  function Step(ms: ModalMap, e: Event): ModalMap
  {
    match e
    case OpenClick(t) => Open(ms, t)
    case CloseClick(m) => CloseModal(ms, m)
    case AnimationEndOf(m) => AnimationEnd(ms, m)
  }

  function Run(ms: ModalMap, es: seq<Event>): ModalMap
    decreases |es|
  {
    if es == [] then ms else Run(Step(ms, es[0]), es[1..])
  }

  /** No modal carries `is-closing` without a close waiting for its
      animation, so no modal can be left half-closed. */
  predicate NeverStuck(ms: ModalMap)
  {
    forall id :: id in ms ==> (ms[id].closing ==> ms[id].pendingEnd)
  }

  lemma StepKeepsNeverStuck(ms: ModalMap, e: Event)
    requires NeverStuck(ms)
    ensures NeverStuck(Step(ms, e))
  {
    var r := Step(ms, e);
    forall id | id in r
      ensures r[id].closing ==> r[id].pendingEnd
    {
      assert FlagsOf(r, id) == r[id];
      assert FlagsOf(ms, id).closing ==> FlagsOf(ms, id).pendingEnd;
    }
  }

  /** Once a modal is marked closing, it stays so (and keeps its close armed)
      through any events that are not its own animation end. */
  lemma {:induction false} PendingSurvives(ms: ModalMap, id: ModalId, es: seq<Event>)
    requires FlagsOf(ms, id).closing && FlagsOf(ms, id).pendingEnd
    requires forall i :: 0 <= i < |es| ==> es[i] != AnimationEndOf(id)
    ensures FlagsOf(Run(ms, es), id).closing && FlagsOf(Run(ms, es), id).pendingEnd
    decreases |es|
  {
    if es != [] {
      var ms' := Step(ms, es[0]);
      assert FlagsOf(ms', id).closing && FlagsOf(ms', id).pendingEnd;
      PendingSurvives(ms', id, es[1..]);
    }
  }

  /** The two-phase close completes: after a close, any clicks (opens of the
      same modal included), and then the modal's animation end, the modal
      carries neither `show` nor `is-closing`. */
  lemma CloseThenAnimationEndHides(ms: ModalMap, id: ModalId, es: seq<Event>)
    requires forall i :: 0 <= i < |es| ==> es[i] != AnimationEndOf(id)
    ensures !FlagsOf(Run(CloseModal(ms, Some(id)), es + [AnimationEndOf(id)]), id).show
    ensures !FlagsOf(Run(CloseModal(ms, Some(id)), es + [AnimationEndOf(id)]), id).closing
  {
    var closed := CloseModal(ms, Some(id));
    PendingSurvives(closed, id, es);
    RunAppend(closed, es, AnimationEndOf(id));
  }

  lemma {:induction false} RunAppend(ms: ModalMap, es: seq<Event>, e: Event)
    ensures Run(ms, es + [e]) == Step(Run(ms, es), e)
    decreases |es|
  {
    if es == [] {
      assert Run(ms, [e]) == Run(Step(ms, e), []);
    } else {
      assert (es + [e])[1..] == es[1..] + [e];
      RunAppend(Step(ms, es[0]), es[1..], e);
    }
  }

  /** The animation end leaves a modal that was not stuck without
      `is-closing`. */
  lemma AnimationEndClearsClosing(ms: ModalMap, id: ModalId)
    requires NeverStuck(ms)
    ensures !FlagsOf(AnimationEnd(ms, id), id).closing
  {
  }

  /** Opening while a close is waiting does not cancel the close. */
  lemma OpenWhileClosingStillHides(ms: ModalMap, id: ModalId)
    ensures FlagsOf(AnimationEnd(Open(CloseModal(ms, Some(id)), Some(id)), id), id) == Hidden
  {
  }

}

=== FILE: options.dfy ===
/** The absent-or-present value used wherever the page lookups of the
    framework (querySelector, closest, getAttribute) can come back null. */
module Options {

  datatype Option<+T> = None | Some(value: T)

}

=== FILE: page.dfy ===
/** The whole page after `initializeFramework`: the sidebar, the modals, the
    tab groups and the dropdowns side by side. Every click bubbles to the
    window, where the dropdown code closes all menus, unless it was a click
    on a dropdown toggle, whose listener stops propagation. */
module Page {
  import opened Options
  import Sidebar
  import Modals
  import Tabs
  import Dropdowns

  /** The parts of the page fixed at setup. */
  datatype Setup = Setup(sidebar: Sidebar.Markup, tabs: Tabs.Document)

  /** Every class flag the framework manages. */
  datatype State = State(
    sidebar: Sidebar.State,
    modals: Modals.ModalMap,
    active: set<Tabs.Elem>,
    shown: set<Dropdowns.MenuId>
  )

  datatype Event =
    | SidebarClick(control: Sidebar.Event)
    | ModalOpenClick(target: Option<Modals.ModalId>)
    | ModalCloseClick(modal: Option<Modals.ModalId>)
    | ModalAnimationEnd(ended: Modals.ModalId)
    | TabClick(link: Tabs.Elem)
    | DropdownToggleClick(menu: Option<Dropdowns.MenuId>)
    | ElsewhereClick

  /** Every event is a click except the end of an animation. */
  predicate IsClick(e: Event)
  {
    !e.ModalAnimationEnd?
  }

  /** What the handlers need from the page so as not to dereference null. */
  predicate CanHandle(setup: Setup, e: Event)
  {
    match e
    case SidebarClick(c) => Sidebar.CanHandle(setup.sidebar, c)
    case TabClick(l) => Tabs.Clickable(setup.tabs, l)
    case _ => true
  }

  /** The click, having run its target's listeners, reaches the window. */
  function Bubble(s: State): State
  {
    s.(shown := Dropdowns.Dispatch(s.shown, Dropdowns.OtherClick))
  }

  function Step(setup: Setup, s: State, e: Event): (r: State)
    requires CanHandle(setup, e)
    // every click but a dropdown toggle's closes all menus
    ensures IsClick(e) && !e.DropdownToggleClick? ==> r.shown == {}
    ensures e.ModalAnimationEnd? ==> r.shown == s.shown
    // a dropdown toggle click stops propagation: only its own listener runs,
    // so the menu it opens stays open
    ensures e.DropdownToggleClick? ==> r.shown == Dropdowns.ToggleHandler(s.shown, e.menu)
    ensures e.DropdownToggleClick? && e.menu.Some? && e.menu.value !in s.shown ==>
      r.shown == {e.menu.value}
    // each event changes only its own component, besides the menus
    ensures !e.SidebarClick? ==> r.sidebar == s.sidebar
    ensures !(e.ModalOpenClick? || e.ModalCloseClick? || e.ModalAnimationEnd?) ==> r.modals == s.modals
    ensures !e.TabClick? ==> r.active == s.active
    // each event runs its own component's handler
    ensures e.SidebarClick? ==> r.sidebar == Sidebar.Step(setup.sidebar, s.sidebar, e.control)
    ensures e.ModalOpenClick? ==> r.modals == Modals.Open(s.modals, e.target)
    ensures e.ModalCloseClick? ==> r.modals == Modals.CloseModal(s.modals, e.modal)
    ensures e.ModalAnimationEnd? ==> r.modals == Modals.AnimationEnd(s.modals, e.ended)
    ensures e.TabClick? ==> r.active == Tabs.Click(setup.tabs, s.active, e.link)
  {
    match e
    case SidebarClick(c) => Bubble(s.(sidebar := Sidebar.Step(setup.sidebar, s.sidebar, c)))
    case ModalOpenClick(t) => Bubble(s.(modals := Modals.Open(s.modals, t)))
    case ModalCloseClick(m) => Bubble(s.(modals := Modals.CloseModal(s.modals, m)))
    case ModalAnimationEnd(m) => s.(modals := Modals.AnimationEnd(s.modals, m))
    case TabClick(l) => Bubble(s.(active := Tabs.Click(setup.tabs, s.active, l)))
    case DropdownToggleClick(menu) => s.(shown := Dropdowns.Dispatch(s.shown, Dropdowns.ToggleClick(menu)))
    case ElsewhereClick => Bubble(s)
  }

  /** The invariants of the four components together. */
  predicate Invariant(setup: Setup, s: State)
  {
    && Dropdowns.AtMostOneOpen(s.shown)
    && Modals.NeverStuck(s.modals)
    && (setup.sidebar.hasOverlay ==> Sidebar.Synced(s.sidebar))
    && Tabs.OneActivePerNav(setup.tabs, s.active)
  }

  /** `initializeFramework`: the classes the markup carries are taken over
      as they are, and `setupTabs` runs. On a well-formed page whose markup
      already meets the component invariants (at most one menu shown, the
      overlay in step with the sidebar, no modal closing, no nav with two
      active links), the loaded page meets them all. */
  method Load(setup: Setup, sidebar: Sidebar.State, modals: Modals.ModalMap,
              active: set<Tabs.Elem>, shown: set<Dropdowns.MenuId>)
    returns (s: State)
    requires Tabs.WellFormed(setup.tabs)
    requires Dropdowns.AtMostOneOpen(shown)
    requires setup.sidebar.hasOverlay ==> Sidebar.Synced(sidebar)
    requires Modals.NeverStuck(modals)
    requires Tabs.OneActivePerNav(setup.tabs, active)
    ensures s.sidebar == sidebar && s.modals == modals && s.shown == shown
    ensures active <= s.active
    ensures forall k :: 0 <= k < |setup.tabs.navs| && Tabs.NavLinks(setup.tabs, setup.tabs.navs[k]) != [] ==>
      Tabs.Settled(setup.tabs, s.active, setup.tabs.navs[k])
    ensures forall k ::
      (0 <= k < |setup.tabs.navs| && Tabs.NavLinks(setup.tabs, setup.tabs.navs[k]) != []
       && Tabs.FirstActive(Tabs.NavLinks(setup.tabs, setup.tabs.navs[k]), active).None?) ==>
        Tabs.NavLinks(setup.tabs, setup.tabs.navs[k])[0] in s.active
    ensures forall e :: e in s.active && e !in active ==>
      e in setup.tabs.target.Values || Tabs.IsFirstLink(setup.tabs, setup.tabs.navs, e)
    ensures Invariant(setup, s)
  {
    var loaded := Tabs.SetupTabs(setup.tabs, active);
    s := State(sidebar, modals, loaded, shown);
  }

  lemma StepKeepsInvariant(setup: Setup, s: State, e: Event)
    requires Tabs.WellFormed(setup.tabs)
    requires CanHandle(setup, e)
    requires Invariant(setup, s)
    ensures Invariant(setup, Step(setup, s, e))
  {
    var r := Step(setup, s, e);
    Dropdowns.DispatchAtMostOne(s.shown, Dropdowns.OtherClick);
    match e {
      case SidebarClick(c) =>
        if setup.sidebar.hasOverlay {
          Sidebar.StepKeepsSynced(setup.sidebar, s.sidebar, c);
        }
      case ModalOpenClick(t) =>
        Modals.StepKeepsNeverStuck(s.modals, Modals.OpenClick(t));
      case ModalCloseClick(m) =>
        Modals.StepKeepsNeverStuck(s.modals, Modals.CloseClick(m));
      case ModalAnimationEnd(m) =>
        Modals.StepKeepsNeverStuck(s.modals, Modals.AnimationEndOf(m));
      case TabClick(l) =>
        Tabs.ClickKeepsOneActivePerNav(setup.tabs, s.active, l);
      case DropdownToggleClick(menu) =>
        Dropdowns.DispatchAtMostOne(s.shown, Dropdowns.ToggleClick(menu));
      case ElsewhereClick =>
    }
  }

  function Run(setup: Setup, s: State, es: seq<Event>): State
    requires forall i :: 0 <= i < |es| ==> CanHandle(setup, es[i])
    decreases |es|
  {
    if es == [] then s else Run(setup, Step(setup, s, es[0]), es[1..])
  }

  /** Every run of events on a well-formed page keeps the invariants. */
  lemma {:induction false} RunKeepsInvariant(setup: Setup, s: State, es: seq<Event>)
    requires Tabs.WellFormed(setup.tabs)
    requires forall i :: 0 <= i < |es| ==> CanHandle(setup, es[i])
    requires Invariant(setup, s)
    ensures Invariant(setup, Run(setup, s, es))
    decreases |es|
  {
    if es != [] {
      StepKeepsInvariant(setup, s, es[0]);
      RunKeepsInvariant(setup, Step(setup, s, es[0]), es[1..]);
    }
  }

}

=== FILE: sidebar.dfy ===
/** The sidebar of the page: a mobile toggle button that slides the sidebar
    in together with its overlay, the overlay itself (clicking it dismisses
    both), and a desktop toggle button that collapses the sidebar.

    The three class flags the handlers touch are kept as booleans; which of
    the optional elements exist on the page is fixed at setup time. */
module Sidebar {

  /** Which of the elements looked up at setup exist. A handler is only
      registered for a button or an overlay that was found. */
  datatype Markup = Markup(
    hasSidebar: bool,
    hasOverlay: bool,
    hasMobileToggle: bool,
    hasDesktopToggle: bool
  )

  /** `show` on the sidebar, `show` on the overlay, `collapsed` on the sidebar. */
  datatype State = State(show: bool, overlayShow: bool, collapsed: bool)

  datatype Event = MobileToggleClick | OverlayClick | DesktopToggleClick

  /** True when a listener is registered for the clicked element. */
  predicate Wired(m: Markup, e: Event)
  {
    match e
    case MobileToggleClick => m.hasMobileToggle
    case OverlayClick => m.hasOverlay
    case DesktopToggleClick => m.hasDesktopToggle
  }

  /** Every registered handler dereferences the sidebar, so a wired click
      needs the sidebar to be on the page. */
  predicate CanHandle(m: Markup, e: Event)
  {
    Wired(m, e) ==> m.hasSidebar
  }

  /** One click on a sidebar control. */
  function Step(m: Markup, s: State, e: Event): (r: State)
    requires CanHandle(m, e)
    ensures !Wired(m, e) ==> r == s
    // the mobile controls never touch the desktop collapse flag
    ensures e != DesktopToggleClick ==> r.collapsed == s.collapsed
    // the desktop toggle never touches the mobile show flags
    ensures e == DesktopToggleClick ==> r.show == s.show && r.overlayShow == s.overlayShow
    // without an overlay element its flag never changes
    ensures !m.hasOverlay ==> r.overlayShow == s.overlayShow
    ensures Wired(m, e) && e == OverlayClick ==> !r.show && !r.overlayShow
    ensures Wired(m, e) && e == MobileToggleClick ==> r.show != s.show
    ensures Wired(m, e) && e == MobileToggleClick && m.hasOverlay ==> r.overlayShow != s.overlayShow
    ensures Wired(m, e) && e == DesktopToggleClick ==> r.collapsed != s.collapsed
  {
    if !Wired(m, e) then s
    else
      match e
      case MobileToggleClick =>
        s.(show := !s.show,
           overlayShow := if m.hasOverlay then !s.overlayShow else s.overlayShow)
      case OverlayClick =>
        s.(show := false, overlayShow := false)
      case DesktopToggleClick =>
        s.(collapsed := !s.collapsed)
  }

  /** The overlay is visible exactly when the sidebar is. */
  predicate Synced(s: State)
  {
    s.show == s.overlayShow
  }

  /** With an overlay on the page, every sidebar click keeps the overlay in
      step with the sidebar. */
  lemma StepKeepsSynced(m: Markup, s: State, e: Event)
    requires CanHandle(m, e)
    requires m.hasOverlay
    requires Synced(s)
    ensures Synced(Step(m, s, e))
  {
  }

  /** Two clicks on the same toggle button give back the state before them. */
  lemma ToggleTwiceRestores(m: Markup, s: State, e: Event)
    requires CanHandle(m, e)
    requires e != OverlayClick
    ensures Step(m, Step(m, s, e), e) == s
  {
  }

  /** Clicking the overlay a second time changes nothing. */
  lemma OverlayClickIdempotent(m: Markup, s: State)
    requires CanHandle(m, OverlayClick)
    ensures Step(m, Step(m, s, OverlayClick), OverlayClick) == Step(m, s, OverlayClick)
  {
  }

  /** A run of clicks, applied in order. */
  function Run(m: Markup, s: State, es: seq<Event>): (r: State)
    requires forall i :: 0 <= i < |es| ==> CanHandle(m, es[i])
    ensures (forall i :: 0 <= i < |es| ==> es[i] != DesktopToggleClick) ==> r.collapsed == s.collapsed
    decreases |es|
  {
    if es == [] then s else Run(m, Step(m, s, es[0]), es[1..])
  }

  /** The overlay and the sidebar stay in step through any run of clicks
      that starts from a state where they are in step. */
  lemma {:induction false} RunKeepsSynced(m: Markup, s: State, es: seq<Event>)
    requires forall i :: 0 <= i < |es| ==> CanHandle(m, es[i])
    requires m.hasOverlay
    requires Synced(s)
    ensures Synced(Run(m, s, es))
    decreases |es|
  {
    if es != [] {
      StepKeepsSynced(m, s, es[0]);
      RunKeepsSynced(m, Step(m, s, es[0]), es[1..]);
    }
  }

}

=== FILE: tabs.dfy ===
/** The tab groups of the page. A `.tabs-nav` holds `.tab-link`s whose
    `href` selects a pane. A click on a link deactivates every link of its
    nav and every `.tab-pane` child of the pane's `.tabs-content` (or of the
    pane's parent when there is none), then activates the link and the pane.
    At setup each nav gets an active link (its first one when none is) and
    that link's pane is activated.

    Elements are opaque ids; the page's structure is a `Document` of lookup
    tables, and the state is the set of elements carrying `active`. */
module Tabs {
  import opened Options

  type Elem = nat

  datatype Document = Document(
    navs: seq<Elem>,                // every `.tabs-nav`, in document order
    links: map<Elem, seq<Elem>>,    // the `.tab-link`s inside each nav, in document order
    navOf: map<Elem, Elem>,         // the `.tabs-nav` enclosing a tab link, when there is one
    target: map<Elem, Elem>,        // the element a link's `href` selects, when one exists
    content: map<Elem, Elem>,       // the `.tabs-content` enclosing a pane, when there is one
    parent: map<Elem, Elem>,        // the parent node of an element
    children: map<Elem, set<Elem>>, // the element children of an element
    paneOrder: seq<Elem>            // every `.tab-pane`, in document order
  )

  function NavLinks(doc: Document, nav: Elem): seq<Elem>
  {
    if nav in doc.links then doc.links[nav] else []
  }

  function Children(doc: Document, e: Elem): set<Elem>
  {
    if e in doc.children then doc.children[e] else {}
  }

  /** What a click on `link` needs from the page so that its handler does
      not dereference null. A link that finds no pane returns early, so only
      a link that does find one must lie inside a `.tabs-nav`, and its pane
      must have a `.tabs-content` or a parent node. */
  predicate Clickable(doc: Document, link: Elem)
  {
    link in doc.target ==>
      && link in doc.navOf
      && (doc.target[link] in doc.content || doc.target[link] in doc.parent)
  }

  /** The panes a click deactivates: the `.tab-pane` children of the pane's
      `.tabs-content`, or of its parent when there is none. */
  function PaneGroup(doc: Document, pane: Elem): (r: set<Elem>)
    requires pane in doc.content || pane in doc.parent
    ensures forall p :: p in r ==> p in doc.paneOrder
    // the `.tab-pane` children of the enclosing `.tabs-content`, when there is one
    ensures pane in doc.content ==>
      forall c :: c in r <==> c in Children(doc, doc.content[pane]) && c in doc.paneOrder
    // otherwise the `.tab-pane` children of the pane's parent
    ensures pane !in doc.content ==>
      forall c :: c in r <==> c in Children(doc, doc.parent[pane]) && c in doc.paneOrder
  {
    var container := if pane in doc.content then doc.content[pane] else doc.parent[pane];
    set c | c in Children(doc, container) && c in doc.paneOrder
  }

  /** The click handler of a tab link. */
  function Click(doc: Document, active: set<Elem>, link: Elem): (r: set<Elem>)
    requires Clickable(doc, link)
    // a link whose pane does not exist changes nothing
    ensures link !in doc.target ==> r == active
    ensures link in doc.target ==> link in r && doc.target[link] in r
    // within the clicked nav only the link (and its pane, were it a link) stay active
    ensures link in doc.target ==>
      forall l :: l in NavLinks(doc, doc.navOf[link]) ==>
        (l in r <==> l == link || l == doc.target[link])
    // within the pane's group only the pane (and the link, were it a pane) stay active
    ensures link in doc.target ==>
      forall p :: p in PaneGroup(doc, doc.target[link]) ==>
        (p in r <==> p == link || p == doc.target[link])
    // every other element keeps its state
    ensures link in doc.target ==>
      forall e ::
        (e !in NavLinks(doc, doc.navOf[link]) && e !in PaneGroup(doc, doc.target[link])
         && e != link && e != doc.target[link]) ==> (e in r <==> e in active)
  {
    if link !in doc.target then active
    else
      var pane := doc.target[link];
      var navLinks := NavLinks(doc, doc.navOf[link]);
      var cleared := active - (set l | l in navLinks) - PaneGroup(doc, pane);
      cleared + {link, pane}
  }

  /** Clicking the same link again changes nothing more. */
  lemma ClickIdempotent(doc: Document, active: set<Elem>, link: Elem)
    requires Clickable(doc, link)
    ensures Click(doc, Click(doc, active, link), link) == Click(doc, active, link)
  {
  }

  /** The structure the markup conventions promise: the links listed for a
      nav are exactly the links whose enclosing nav it is (so navs are not
      nested), and neither a link's target nor a `.tab-pane` is itself a
      tab link. */
  predicate WellFormed(doc: Document)
  {
    && (forall l :: l in doc.navOf ==> doc.navOf[l] in doc.links && l in doc.links[doc.navOf[l]])
    && (forall n, l :: n in doc.links && l in doc.links[n] ==> l in doc.navOf && doc.navOf[l] == n)
    && (forall l :: l in doc.target ==> doc.target[l] !in doc.navOf)
    && (forall p :: p in doc.paneOrder ==> p !in doc.navOf)
  }

  /** No nav has two active links. */
  predicate OneActivePerNav(doc: Document, active: set<Elem>)
  {
    forall n, a, b ::
      (n in doc.links && a in doc.links[n] && b in doc.links[n] && a in active && b in active)
      ==> a == b
  }

  /** On a well-formed page a successful click leaves the clicked link the
      only active link of its nav. */
  lemma ClickOnlyActiveLink(doc: Document, active: set<Elem>, link: Elem)
    requires WellFormed(doc) && Clickable(doc, link)
    requires link in doc.target
    ensures forall l :: l in NavLinks(doc, doc.navOf[link]) ==>
      (l in Click(doc, active, link) <==> l == link)
  {
    var nav := doc.navOf[link];
    assert link in NavLinks(doc, nav);
    forall l | l in NavLinks(doc, nav)
      ensures l in Click(doc, active, link) <==> l == link
    {
      assert l in doc.links[nav];
      assert l in doc.navOf;
    }
  }

  /** On a well-formed page every click keeps each nav to at most one
      active link. */
  lemma ClickKeepsOneActivePerNav(doc: Document, active: set<Elem>, link: Elem)
    requires WellFormed(doc) && Clickable(doc, link)
    requires OneActivePerNav(doc, active)
    ensures OneActivePerNav(doc, Click(doc, active, link))
  {
    if link in doc.target {
      var r := Click(doc, active, link);
      var nav := doc.navOf[link];
      var pane := doc.target[link];
      forall n, a, b | n in doc.links && a in doc.links[n] && b in doc.links[n] && a in r && b in r
        ensures a == b
      {
        if n == nav {
          assert a in NavLinks(doc, nav) && b in NavLinks(doc, nav);
          assert a in doc.navOf && b in doc.navOf;
        } else {
          Untouched(doc, active, link, n, a);
          Untouched(doc, active, link, n, b);
        }
      }
    }
  }

  /** A link of another nav is not touched by a click. */
  lemma Untouched(doc: Document, active: set<Elem>, link: Elem, n: Elem, a: Elem)
    requires WellFormed(doc) && Clickable(doc, link)
    requires link in doc.target
    requires n in doc.links && a in doc.links[n] && n != doc.navOf[link]
    ensures a in Click(doc, active, link) <==> a in active
  {
    var nav := doc.navOf[link];
    assert a in doc.navOf && doc.navOf[a] == n;
    assert a !in NavLinks(doc, nav);
    assert a !in PaneGroup(doc, doc.target[link]);
  }

  /** The index of the first active link, what `.tab-link.active` finds. */
  function FirstActive(ls: seq<Elem>, active: set<Elem>): (r: Option<nat>)
    ensures r.Some? ==> r.value < |ls| && ls[r.value] in active
    ensures r.Some? ==> forall j :: 0 <= j < r.value ==> ls[j] !in active
    ensures r.None? ==> forall j :: 0 <= j < |ls| ==> ls[j] !in active
  {
    if ls == [] then None
    else if ls[0] in active then Some(0)
    else
      match FirstActive(ls[1..], active)
      case None => None
      case Some(i) => Some(i + 1)
  }

  /** The pane a link's `href` selects, as a set: empty when it finds none. */
  function TargetOf(doc: Document, link: Elem): set<Elem>
  {
    if link in doc.target then {doc.target[link]} else {}
  }

  /** Some link of the nav is active, and so is the pane it selects. */
  predicate Settled(doc: Document, active: set<Elem>, nav: Elem)
  {
    var ls := NavLinks(doc, nav);
    exists i :: 0 <= i < |ls| && ls[i] in active
      && (ls[i] in doc.target ==> doc.target[ls[i]] in active)
  }

  /** Setup of one nav: with an active link, activate its pane; otherwise
      activate the first link and its pane. */
  function InitNav(doc: Document, active: set<Elem>, nav: Elem): (r: set<Elem>)
    ensures active <= r
    ensures NavLinks(doc, nav) == [] ==> r == active
    ensures NavLinks(doc, nav) != [] ==> Settled(doc, r, nav)
    // with a link active, the first active link's pane is activated, and nothing else
    ensures var ls := NavLinks(doc, nav); var first := FirstActive(ls, active);
      first.Some? ==>
        TargetOf(doc, ls[first.value]) <= r && r <= active + TargetOf(doc, ls[first.value])
    // with no link active, the first link and its pane are activated, and nothing else
    ensures var ls := NavLinks(doc, nav);
      ls != [] && FirstActive(ls, active).None? ==>
        ls[0] in r && TargetOf(doc, ls[0]) <= r && r <= active + {ls[0]} + TargetOf(doc, ls[0])
  {
    var ls := NavLinks(doc, nav);
    match FirstActive(ls, active)
    case Some(i) => active + TargetOf(doc, ls[i])
    case None =>
      if ls == [] then active
      else
        var r := active + {ls[0]} + TargetOf(doc, ls[0]);
        assert ls[0] in r && (ls[0] in doc.target ==> doc.target[ls[0]] in r);
        r
  }

  /** Setup of every nav, in document order. */
  function InitAll(doc: Document, active: set<Elem>, navs: seq<Elem>): (r: set<Elem>)
    ensures active <= r
    decreases |navs|
  {
    if navs == [] then active else InitAll(doc, InitNav(doc, active, navs[0]), navs[1..])
  }

  /** Activating more elements keeps a settled nav settled. */
  lemma SettledGrows(doc: Document, a: set<Elem>, b: set<Elem>, nav: Elem)
    requires Settled(doc, a, nav) && a <= b
    ensures Settled(doc, b, nav)
  {
    var ls := NavLinks(doc, nav);
    var i :| 0 <= i < |ls| && ls[i] in a && (ls[i] in doc.target ==> doc.target[ls[i]] in a);
    assert ls[i] in b && (ls[i] in doc.target ==> doc.target[ls[i]] in b);
  }

  /** After setup every nav that has a link is settled. */
  lemma {:induction false} InitAllSettles(doc: Document, active: set<Elem>, navs: seq<Elem>)
    ensures forall k :: 0 <= k < |navs| && NavLinks(doc, navs[k]) != [] ==>
      Settled(doc, InitAll(doc, active, navs), navs[k])
    decreases |navs|
  {
    if navs != [] {
      var a1 := InitNav(doc, active, navs[0]);
      var r := InitAll(doc, a1, navs[1..]);
      InitAllSettles(doc, a1, navs[1..]);
      forall k | 0 <= k < |navs| && NavLinks(doc, navs[k]) != []
        ensures Settled(doc, r, navs[k])
      {
        if k == 0 {
          SettledGrows(doc, a1, r, navs[0]);
        } else {
          assert navs[k] == navs[1..][k - 1];
        }
      }
    }
  }

  /** On a well-formed page, a nav with no active link at the start of
      setup gets its first link activated, whatever the navs before it did. */
  lemma {:induction false} InitAllFirstLink(doc: Document, active: set<Elem>, navs: seq<Elem>)
    requires WellFormed(doc)
    ensures forall k ::
      (0 <= k < |navs| && NavLinks(doc, navs[k]) != []
       && FirstActive(NavLinks(doc, navs[k]), active).None?) ==>
        NavLinks(doc, navs[k])[0] in InitAll(doc, active, navs)
    decreases |navs|
  {
    if navs != [] {
      var a1 := InitNav(doc, active, navs[0]);
      var r := InitAll(doc, a1, navs[1..]);
      InitAllFirstLink(doc, a1, navs[1..]);
      forall k | 0 <= k < |navs| && NavLinks(doc, navs[k]) != []
        && FirstActive(NavLinks(doc, navs[k]), active).None?
        ensures NavLinks(doc, navs[k])[0] in r
      {
        var ls := NavLinks(doc, navs[k]);
        if navs[k] == navs[0] {
          assert ls[0] in a1;
        } else {
          assert navs[k] == navs[1..][k - 1];
          OtherNavUntouched(doc, active, navs[0], navs[k]);
        }
      }
    }
  }

  /** Setting up one nav activates no link of another nav. */
  lemma OtherNavUntouched(doc: Document, active: set<Elem>, nav: Elem, other: Elem)
    requires WellFormed(doc)
    requires nav != other && NavLinks(doc, other) != []
    requires FirstActive(NavLinks(doc, other), active).None?
    ensures FirstActive(NavLinks(doc, other), InitNav(doc, active, nav)).None?
  {
    var ls := NavLinks(doc, other);
    var a1 := InitNav(doc, active, nav);
    var own := NavLinks(doc, nav);
    forall j | 0 <= j < |ls|
      ensures ls[j] !in a1
    {
      assert ls[j] in doc.links[other];
      assert ls[j] in doc.navOf && doc.navOf[ls[j]] == other;
      if own != [] {
        assert own[0] in doc.links[nav];
      }
    }
  }

  /** Some nav among `navs` has `e` as its first link. */
  predicate IsFirstLink(doc: Document, navs: seq<Elem>, e: Elem)
  {
    exists k :: 0 <= k < |navs| && NavLinks(doc, navs[k]) != [] && NavLinks(doc, navs[k])[0] == e
  }

  /** Setup activates nothing but first links of navs and panes that some
      link selects. */
  lemma {:induction false} InitAllAddsOnly(doc: Document, active: set<Elem>, navs: seq<Elem>)
    ensures forall e :: e in InitAll(doc, active, navs) && e !in active ==>
      e in doc.target.Values || IsFirstLink(doc, navs, e)
    decreases |navs|
  {
    if navs != [] {
      var a1 := InitNav(doc, active, navs[0]);
      var r := InitAll(doc, a1, navs[1..]);
      InitAllAddsOnly(doc, a1, navs[1..]);
      forall e | e in r && e !in active
        ensures e in doc.target.Values || IsFirstLink(doc, navs, e)
      {
        if e !in a1 {
          if IsFirstLink(doc, navs[1..], e) {
            var k :| 0 <= k < |navs[1..]| && NavLinks(doc, navs[1..][k]) != []
              && NavLinks(doc, navs[1..][k])[0] == e;
            assert navs[k + 1] == navs[1..][k];
          }
        } else {
          var ls := NavLinks(doc, navs[0]);
          if ls != [] && e == ls[0] {
            assert NavLinks(doc, navs[0]) != [] && NavLinks(doc, navs[0])[0] == e;
          }
        }
      }
    }
  }

  /** On a well-formed page, setting up one nav keeps every nav to at most
      one active link. */
  lemma InitNavKeepsOneActivePerNav(doc: Document, active: set<Elem>, nav: Elem)
    requires WellFormed(doc)
    requires OneActivePerNav(doc, active)
    ensures OneActivePerNav(doc, InitNav(doc, active, nav))
  {
    var r := InitNav(doc, active, nav);
    var ls := NavLinks(doc, nav);
    forall n, a, b | n in doc.links && a in doc.links[n] && b in doc.links[n] && a in r && b in r
      ensures a == b
    {
      assert a in doc.navOf && b in doc.navOf;
      if a !in active || b !in active {
        // the only link setup can add is the first link of a nav with none active
        assert ls != [] && FirstActive(ls, active).None?;
        assert ls[0] in doc.links[nav];
      }
    }
  }

  /** Setup of every nav keeps every nav to at most one active link. */
  lemma {:induction false} InitAllKeepsOneActivePerNav(doc: Document, active: set<Elem>, navs: seq<Elem>)
    requires WellFormed(doc)
    requires OneActivePerNav(doc, active)
    ensures OneActivePerNav(doc, InitAll(doc, active, navs))
    decreases |navs|
  {
    if navs != [] {
      InitNavKeepsOneActivePerNav(doc, active, navs[0]);
      InitAllKeepsOneActivePerNav(doc, InitNav(doc, active, navs[0]), navs[1..]);
    }
  }

  /** The panes that `.tab-pane:not(.active)` matches, in document order. */
  function InactivePanes(ps: seq<Elem>, active: set<Elem>): (r: seq<Elem>)
    ensures forall i :: 0 <= i < |r| ==> r[i] !in active && r[i] in ps
    ensures forall p :: p in ps && p !in active ==> p in r
  {
    if ps == [] then []
    else if ps[0] in active then InactivePanes(ps[1..], active)
    else [ps[0]] + InactivePanes(ps[1..], active)
  }

  /** The last pass of setup: `active` is removed from panes that do not
      carry it, which leaves the state as it was. */
  method HideInactivePanes(active: set<Elem>, inactive: seq<Elem>) returns (r: set<Elem>)
    requires forall i :: 0 <= i < |inactive| ==> inactive[i] !in active
    ensures r == active
  {
    r := active;
    var i := 0;
    while i < |inactive|
      invariant 0 <= i <= |inactive|
      invariant r == active
    {
      r := r - {inactive[i]};
      i := i + 1;
    }
  }

  /** `setupTabs` at page load. It only ever adds `active`: to first links
      and to panes that links select. Every nav that has a link ends
      settled. On a well-formed page, a nav with no active link gets its
      first link activated, and no nav ends with two active links if none
      started with two. */
  method SetupTabs(doc: Document, active: set<Elem>) returns (r: set<Elem>)
    ensures active <= r
    ensures forall e :: e in r && e !in active ==> e in doc.target.Values || IsFirstLink(doc, doc.navs, e)
    ensures forall k :: 0 <= k < |doc.navs| && NavLinks(doc, doc.navs[k]) != [] ==>
      Settled(doc, r, doc.navs[k])
    ensures WellFormed(doc) ==>
      forall k ::
        (0 <= k < |doc.navs| && NavLinks(doc, doc.navs[k]) != []
         && FirstActive(NavLinks(doc, doc.navs[k]), active).None?) ==>
          NavLinks(doc, doc.navs[k])[0] in r
    ensures WellFormed(doc) && OneActivePerNav(doc, active) ==> OneActivePerNav(doc, r)
  {
    r := InitAll(doc, active, doc.navs);
    InitAllSettles(doc, active, doc.navs);
    InitAllAddsOnly(doc, active, doc.navs);
    if WellFormed(doc) {
      InitAllFirstLink(doc, active, doc.navs);
      if OneActivePerNav(doc, active) {
        InitAllKeepsOneActivePerNav(doc, active, doc.navs);
      }
    }
    r := HideInactivePanes(r, InactivePanes(doc.paneOrder, r));
  }

}
